=== FILE: README.md ===
# egui style resolution, modelled in Dafny

This project models the style-resolution layer of egui's theme
(`crates/egui/src/style.rs`): the pure logic that turns a theme — a `Style`
holding a text-style-to-font table, spacing, interaction settings and
`Visuals` with five per-state `WidgetVisuals` — plus a widget's interaction
flags into concrete paint parameters, and the constant presets the theme
starts from.

Modules (one per component):

- `Results` — `Option` for the theme's optional overrides, `Result` for the one lookup that can fail.
- `Colors` — `Color32` as four premultiplied RGBA bytes, `Stroke`, `CornerRadius`, `Shadow`.
- `TextStyles` — the `TextStyle` key, `FontId`, the default font table, the derived total order on keys, and the ordered enumeration of a table's keys.
- `WidgetStates` — the `Response` flags, `WidgetVisuals`, `Widgets`, the interaction-state classifier, `Selection`, and the dark/light widget presets.
- `VisualTheme` — `Visuals`, its dark and light presets and the accessors that apply the override layers.
- `ScrollStyles` — `ScrollStyle`, its three presets and the space a bar allocates.
- `Styles` — the `Style` aggregate, its defaults, text-style and font-selection resolution, and the `interact` lookups.

Assumptions about code that is not part of this model:

- The colour constructors live in the `ecolor` crate. The model takes `from_gray` and `from_rgb` (and so `WHITE` and `BLACK`) to give opaque colours (alpha 255). It takes `from_black_alpha(a)` to give `(0, 0, 0, a)`, `from_additive_luminance(l)` to give `(l, l, l, 0)`, and `TRANSPARENT` to be `(0, 0, 0, 0)`.
- `Stroke::default()` (epaint) is taken to be width 0 with the transparent colour.
- `CornerRadius::same(n)` is taken to round all four corners by `n`.
- `Response` is reduced to six flags: sense-is-interactive, pointer-button-down-on, has-focus, clicked, hovered and highlighted. Its methods are not part of this model.
- `f32` fields are modelled as exact `real`s, and preset literals are taken at their decimal value. The `f32` values of 0.6, 0.4, 0.7, 0.2 and 1/12 differ slightly from those decimals; no contract depends on the difference.

The derived `Ord` on `TextStyle` compares the variant first, in declaration order, and then the name. The names are `Arc<str>` and compare bytewise, which for UTF-8 is the same as comparing by code point. The model compares names character by character.

## Model

| member | source | states |
|---|---|---|
| TextStyles.DefaultTextStyles | crates/egui/src/style.rs:1292-1304 | the default table has exactly the five baseline keys with positive sizes; Monospace uses the monospace family and the rest are proportional; Body and Button share a size; Small < Body < Heading |
| TextStyles.LessIrreflexive | crates/egui/src/style.rs:68-93 | the derived key order is strict: no key precedes itself (by induction over names) |
| TextStyles.LessTransitive | crates/egui/src/style.rs:68-93 | the derived key order (variant, then name) is transitive |
| TextStyles.LessTotal | crates/egui/src/style.rs:68-93 | any two distinct keys are ordered, so the table can be enumerated in a total order |
| TextStyles.SortedKeys | crates/egui/src/style.rs:373-375 | enumerating a table's keys gives each key exactly once, in strictly increasing order |
| TextStyles.IncreasingEnumerationUnique | crates/egui/src/style.rs:373-375 | two strictly increasing enumerations of the same key set are equal, so the enumeration order is deterministic |
| Styles.AvailableTextStyles | crates/egui/src/style.rs:110-118 | the keys listed when a lookup fails are in table order and are exactly the keys that resolve |
| Styles.ResolveTextStyle | crates/egui/src/style.rs:108-118 | a lookup succeeds if and only if the key is in the table, and then gives its font; otherwise it fails with an error naming the key |
| Styles.ResolveFont | crates/egui/src/style.rs:143-158 | a direct font is returned unchanged; a keyed selection is a lookup; the default selection uses the font override, then the text-style override, then Body |
| Styles.FontOverrideBeatsTextStyleOverride | crates/egui/src/style.rs:146-153 | with a font override set, the default selection gives that font whatever the text-style override is |
| Styles.ResolveFontFailsOnlyOnMissingKey | crates/egui/src/style.rs:110-158 | in a table with the baseline keys and the override key, font selection fails exactly when a keyed selection names a missing key, and the error names that key |
| Styles.DefaultStyle | crates/egui/src/style.rs:1306-1331 | the default theme's table has exactly the baseline keys and each resolves; the drag-value style resolves; neither the font override nor the text-style override is set, while text is vertically centred; its visuals are the dark preset and its scroll style is floating |
| Styles.DefaultStyleResolvesBody | crates/egui/src/style.rs:1306-1313 | in the default theme the default selection resolves to the Body font, 12.5 points proportional |
| Styles.DefaultSpacing | crates/egui/src/style.rs:1333-1358 | default spacing uses the floating scroll style |
| Styles.DefaultInteraction | crates/egui/src/style.rs:1360-1373 | the default interaction literals; the stated orderings (side grab radius < corner grab radius, 0 < tooltip grace time < tooltip delay) describe those literals and are not a documented promise |
| Styles.Interact | crates/egui/src/style.rs:352-354 | the theme's look for a response is the stored look of the response's classified state (never the open state); a response that does not sense interaction gets the non-interactive look |
| Styles.InteractSelectable | crates/egui/src/style.rs:356-365 | unselected gives exactly `Interact`; selected puts the selection fill into both fills and the selection stroke into the foreground; outline, rounding and expansion always stay those of `Interact` |
| Styles.InteractSelectableKeepsBgFillVisible | crates/egui/src/style.rs:1183-1187 | if no state's mandatory background is transparent and the selection fill is not transparent, the selectable look never has a transparent mandatory background |
| Styles.SelectedFillsIgnoreInteraction | crates/egui/src/style.rs:356-365 | a selected widget's fills do not depend on its interaction flags, and its text colour is the selection stroke colour |
| Styles.Noninteractive | crates/egui/src/style.rs:367-370 | the non-interactive look equals what `Interact` gives any response that does not sense interaction |
| Styles.PresetSelectableBgFillVisible | crates/egui/src/style.rs:1487-1598 | under either preset, selected or not, no response gets a transparent mandatory background |
| WidgetStates.Classify | crates/egui/src/style.rs:1165-1176 | the chosen state is the strongest state whose condition the flags meet (non-interactive > active > hovered > inactive), and it is never open |
| WidgetStates.ClassifyPrecedence | crates/egui/src/style.rs:1165-1176 | each of the four outcomes holds if and only if its condition holds and no stronger condition does |
| WidgetStates.Widgets.Style | crates/egui/src/style.rs:1165-1176 | the look for a response is the stored look of its classified state; a non-interactive response always gets the non-interactive look; the open look is never picked on its own |
| WidgetStates.NoninteractiveIgnoresOtherFlags | crates/egui/src/style.rs:1166-1167 | two responses that do not sense interaction get the same non-interactive look, whatever their other flags |
| WidgetStates.ActiveNotOverriddenByHover | crates/egui/src/style.rs:1168-1171 | a pressed, focused or clicked widget keeps the active look however its hover and highlight flags are set |
| WidgetStates.DarkWidgets | crates/egui/src/style.rs:1509-1553 | no state's mandatory background is transparent (all are opaque); the non-interactive fills agree; the inactive outline draws nothing |
| WidgetStates.LightWidgets | crates/egui/src/style.rs:1555-1598 | the same invariants hold for the light widget looks |
| WidgetStates.PresetStyleBgFillVisible | crates/egui/src/style.rs:1183-1187 | for every response, both presets' looks have a visible mandatory background |
| WidgetStates.DarkSelection | crates/egui/src/style.rs:1488-1493 | the dark selection fill is opaque and its stroke is visible |
| WidgetStates.LightSelection | crates/egui/src/style.rs:1495-1500 | the light selection fill is opaque and its stroke is visible |
| WidgetStates.DefaultSelection | crates/egui/src/style.rs:1503-1507 | the default selection is the dark one |
| WidgetStates.DefaultWidgets | crates/egui/src/style.rs:1601-1605 | the default widget looks are the dark ones |
| WidgetStates.WidgetVisuals.TextColor | crates/egui/src/style.rs:1210-1213 | text takes the colour of the foreground stroke |
| VisualTheme.TextColor | crates/egui/src/style.rs:1054-1057 | the global override wins; without it, text takes the colour a non-interactive widget's look gives |
| VisualTheme.WeakTextColor | crates/egui/src/style.rs:1059-1062 | an explicit weak colour wins; without it, weak text is the effective text colour (override first, else the non-interactive foreground) scaled by the weak-text alpha |
| VisualTheme.StrongTextColor | crates/egui/src/style.rs:1064-1067 | strong text takes the colour a pressed, focused or clicked widget's look gives |
| VisualTheme.TextEditBgColor | crates/egui/src/style.rs:1069-1072 | an explicit text-edit background wins; without it, the extreme background is used |
| VisualTheme.StrongTextIgnoresOverride | crates/egui/src/style.rs:1054-1067 | setting the global text-colour override changes ordinary text to that colour and leaves strong text unchanged |
| VisualTheme.DefaultTextCursor | crates/egui/src/style.rs:895-905 | the default cursor blinks, shows no preview, and is on as long as it is off |
| VisualTheme.Dark | crates/egui/src/style.rs:1376-1437 | the dark preset is marked dark, uses the dark widgets and selection, sets no overrides, and keeps the background and alpha invariants |
| VisualTheme.Light | crates/egui/src/style.rs:1439-1478 | the light preset is marked light and uses the light widgets and selection; every field it does not set equals the dark preset's; its cursor differs from the dark one only in the stroke; its window shadow is fainter; the faint-background and error colours it restates equal the dark ones |
| VisualTheme.DefaultVisuals | crates/egui/src/style.rs:1481-1485 | the default visuals are the dark preset |
| VisualTheme.PresetTextColors | crates/egui/src/style.rs:1376-1478 | the accessors give gray 140 text, white strong text and a gray 10 edit background in dark mode, and gray 80, black and white in light mode |
| ScrollStyles.Solid | crates/egui/src/style.rs:578-599 | the solid preset is not floating and is well formed; its dormant opacities are 0, which has no effect because opacities apply to floating bars only and a solid bar is always opaque |
| ScrollStyles.Thin | crates/egui/src/style.rs:601-621 | the thin preset floats, is well formed, keeps solid's handle length, margins and floating width, is fully opaque when dormant and translucent when expanded |
| ScrollStyles.Floating | crates/egui/src/style.rs:623-636 | the floating preset floats with foreground colours, is well formed, hides when dormant and keeps every other field of solid's |
| ScrollStyles.DefaultScrollStyle | crates/egui/src/style.rs:571-575 | the default scroll style is the floating preset |
| ScrollStyles.AllocatedWidth | crates/egui/src/style.rs:638-645 | a floating bar takes its reserved width (which need not be zero: the thin preset reserves 6); a solid bar takes its width plus both margins; for well-formed styles this is non-negative and a solid bar takes at least its own width |
| ScrollStyles.FloatingWidthIndependentOfBar | crates/egui/src/style.rs:638-645 | a floating bar's allocated width does not change with its drawn width or margins |
| ScrollStyles.PresetAllocatedWidths | crates/egui/src/style.rs:571-645 | solid allocates 10, thin 6, floating and the default 0 |

## Left out

- Editor UI is left out: every `ui` / `details_ui` method, `text_styles_ui`, `text_alpha_from_coverage_ui`, `two_drag_values`, `NumericColorSpace::toggle_button_ui`, and the `Widget` impls for `Margin`, `CornerRadius`, `Shadow`, `Stroke`, `Frame` and `FontTweak`. They are immediate-mode UI plumbing over a `Ui` that is not part of this model.
- `NumberFormatter` and `StyleModifier` are left out, and so is the `number_formatter` field of `Style`. They are opaque shared closures compared by pointer identity, which a value model cannot express.
- `Visuals::disable`, `gray_out` and `fade_out_to_color` are left out. They are single calls into colour math (`gamma_multiply`, `tint_color_towards`) in a crate that is not part of this model.
- VisualTheme.WeakTextColor: the alpha scaling is a parameter (`gammaMultiply`), so only the choice between the explicit colour and the derived one is modelled.
- `Spacing::icon_rectangles` is left out because it is floating-point rectangle geometry.
- `ScrollAnimation` and the `scroll_animation` field are left out. They involve `f32::INFINITY`, and the duration computation is not in the modelled code.
- The internals of `AlphaFromCoverage`, `Shadow` and `FontTweak` are left out. `AlphaFromCoverage` appears only as the two named preset constants.
- Serialization is left out, along with `DebugOptions` (compiled in debug builds only), the deprecated `wrap` field and the deprecated `rounding` accessor.
- `Display` for `TextStyle` is left out, and so is the formatting of the panic message. A missing text style is modelled as `Failure(MissingTextStyle(key))`, and the list the message prints is `Styles.AvailableTextStyles`.
- Floating-point rounding is not modelled: `f32` values are exact reals.
- `crates/egui_demo_lib/src/demo/sliders.rs` is a demo view over `Slider` and `Ui`. Its only logic is `f64` range clamping with infinities, which is UI and floating point.

=== FILE: colors.dfy ===
/** Colours, strokes and shapes of the paint layer, reduced to the value types
    the theme stores. The colour constructors live in a colour crate that is not
    part of this model; their meaning here is stated as an assumption: every
    colour is four premultiplied RGBA bytes, and the gray and RGB constructors
    produce opaque colours. */
module Colors {

  type byte = x: int | 0 <= x < 256

  /** Premultiplied red, green, blue and alpha bytes. */
  datatype Color32 = Color32(r: byte, g: byte, b: byte, a: byte)

  /** The colour with every channel zero: nothing is painted. */
  const TRANSPARENT: Color32 := Color32(0, 0, 0, 0)
  const WHITE: Color32 := FromRgb(255, 255, 255)
  const BLACK: Color32 := FromRgb(0, 0, 0)

  /** An opaque colour with all three channels equal to `l`. */
  function FromGray(l: byte): (c: Color32)
    ensures IsOpaque(c)
    ensures c.r == c.g == c.b == l
  {
    Color32(l, l, l, 255)
  }

  /** An opaque colour from its three channels. */
  function FromRgb(r: byte, g: byte, b: byte): (c: Color32)
    ensures IsOpaque(c)
    ensures c.r == r && c.g == g && c.b == b
  {
    Color32(r, g, b, 255)
  }

  /** Black with the given opacity (premultiplied, so the colour channels stay zero). */
  function FromBlackAlpha(a: byte): (c: Color32)
    ensures c.a == a && c.r == 0 && c.g == 0 && c.b == 0
  {
    Color32(0, 0, 0, a)
  }

  /** A colour that adds `l` to what is underneath: gray channels, zero alpha. */
  function FromAdditiveLuminance(l: byte): (c: Color32)
    ensures c.a == 0 && c.r == l
    ensures l > 0 ==> c != TRANSPARENT
  {
    Color32(l, l, l, 0)
  }

  predicate IsOpaque(c: Color32) {
    c.a == 255
  }

  /** A line width (in points) and a colour. */
  datatype Stroke = Stroke(width: real, color: Color32)

  /** The default stroke draws nothing: zero width, transparent. */
  const STROKE_NONE: Stroke := Stroke(0.0, TRANSPARENT)

  /** Corner rounding: each corner has its own radius in points. Every preset
      rounds all four corners equally, with `Same(n)`. */
  datatype CornerRadius = CornerRadius(nw: nat, ne: nat, sw: nat, se: nat)

  function Same(n: nat): (c: CornerRadius)
    ensures c.nw == c.ne == c.sw == c.se == n
  {
    CornerRadius(n, n, n, n)
  }

  /** A drop shadow: offset, blur and spread in points, and its colour. */
  datatype Shadow = Shadow(offsetX: int, offsetY: int, blur: nat, spread: nat, color: Color32)
}

=== FILE: results.dfy ===
/** Wrappers used across the model: `Option` for the
    theme's optional overrides and `Result` for the one lookup that can fail. */
module Results {

  /** An optional value, as used for every `Option<...>` override in the theme. */
  datatype Option<+T> = None | Some(value: T) {

    /** The wrapped value, or `default` when there is none. */
    function GetOr(default: T): (r: T)
      ensures Some? ==> r == value
      ensures None? ==> r == default
    {
      match this
      case Some(v) => v
      case None => default
    }
  }

  /** Either a value or an error describing why it could not be produced. */
  datatype Result<+T, +E> = Success(value: T) | Failure(error: E)
}

=== FILE: scroll_styles.dfy ===
/** Scroll-bar geometry and opacity, its three presets, and the space a
    scroll bar takes away from the content beside it. */
module ScrollStyles {

  datatype ScrollStyle = ScrollStyle(
    floating: bool,                  // bars float above the content instead of taking space
    barWidth: real,                  // width of the bar at its widest
    handleMinLength: real,
    barInnerMargin: real,            // between content and bar
    barOuterMargin: real,            // between bar and the outer container
    floatingWidth: real,             // width of a floating bar nobody hovers
    floatingAllocatedWidth: real,    // space reserved for a floating bar
    foregroundColor: bool,           // use higher-contrast colours
    dormantBackgroundOpacity: real,
    activeBackgroundOpacity: real,
    interactBackgroundOpacity: real,
    dormantHandleOpacity: real,
    activeHandleOpacity: real,
    interactHandleOpacity: real
  )

  /** Every length is non-negative and every opacity lies in [0, 1]. */
  predicate WellFormed(s: ScrollStyle) {
    && s.barWidth >= 0.0 && s.handleMinLength >= 0.0
    && s.barInnerMargin >= 0.0 && s.barOuterMargin >= 0.0
    && s.floatingWidth >= 0.0 && s.floatingAllocatedWidth >= 0.0
    && 0.0 <= s.dormantBackgroundOpacity <= 1.0
    && 0.0 <= s.activeBackgroundOpacity <= 1.0
    && 0.0 <= s.interactBackgroundOpacity <= 1.0
    && 0.0 <= s.dormantHandleOpacity <= 1.0
    && 0.0 <= s.activeHandleOpacity <= 1.0
    && 0.0 <= s.interactHandleOpacity <= 1.0
  }

  /** The fields `Thin` takes over from `Solid`. */
  predicate ThinInherits(t: ScrollStyle, s: ScrollStyle) {
    && t.handleMinLength == s.handleMinLength
    && t.barInnerMargin == s.barInnerMargin
    && t.barOuterMargin == s.barOuterMargin
    && t.floatingWidth == s.floatingWidth
  }

  /** The fields `Floating` takes over from `Solid`. */
  predicate FloatingInherits(f: ScrollStyle, s: ScrollStyle) {
    && f.handleMinLength == s.handleMinLength
    && f.barInnerMargin == s.barInnerMargin
    && f.barOuterMargin == s.barOuterMargin
    && f.floatingWidth == s.floatingWidth
    && f.activeBackgroundOpacity == s.activeBackgroundOpacity
    && f.interactBackgroundOpacity == s.interactBackgroundOpacity
    && f.activeHandleOpacity == s.activeHandleOpacity
    && f.interactHandleOpacity == s.interactHandleOpacity
  }

  /** Solid bars that always take up space. Their opacities are set but only
      floating bars use them: a solid bar is always opaque. */
  function Solid(): (s: ScrollStyle)
    ensures !s.floating && WellFormed(s)
    ensures s.dormantBackgroundOpacity == 0.0 && s.dormantHandleOpacity == 0.0
  {
    ScrollStyle(
      floating := false,
      barWidth := 6.0,
      handleMinLength := 12.0,
      barInnerMargin := 4.0,
      barOuterMargin := 0.0,
      floatingWidth := 2.0,
      floatingAllocatedWidth := 0.0,
      foregroundColor := false,
      dormantBackgroundOpacity := 0.0,
      activeBackgroundOpacity := 0.4,
      interactBackgroundOpacity := 0.7,
      dormantHandleOpacity := 0.0,
      activeHandleOpacity := 0.6,
      interactHandleOpacity := 1.0
    )
  }

  /** Thin floating bars that are always visible and widen on hover. */
  function Thin(): (s: ScrollStyle)
    ensures s.floating && WellFormed(s)
    ensures ThinInherits(s, Solid())
    ensures s.dormantBackgroundOpacity == 1.0 && s.dormantHandleOpacity == 1.0
    ensures s.interactBackgroundOpacity < s.activeBackgroundOpacity
  {
    Solid().(
      floating := true,
      barWidth := 10.0,
      floatingAllocatedWidth := 6.0,
      foregroundColor := false,
      dormantBackgroundOpacity := 1.0,
      dormantHandleOpacity := 1.0,
      activeBackgroundOpacity := 1.0,
      activeHandleOpacity := 1.0,
      interactBackgroundOpacity := 0.6,
      interactHandleOpacity := 0.6
    )
  }

  /** Floating bars that stay hidden until the area is hovered. */
  function Floating(): (s: ScrollStyle)
    ensures s.floating && s.foregroundColor && WellFormed(s)
    ensures FloatingInherits(s, Solid())
    ensures s.dormantBackgroundOpacity == 0.0 && s.dormantHandleOpacity == 0.0
  {
    Solid().(
      floating := true,
      barWidth := 10.0,
      foregroundColor := true,
      floatingAllocatedWidth := 0.0,
      dormantBackgroundOpacity := 0.0,
      dormantHandleOpacity := 0.0
    )
  }

  /** The default scroll style is the floating one. */
  function DefaultScrollStyle(): (s: ScrollStyle)
    ensures s == Floating()
  {
    Floating()
  }

  /** The width a vertical bar (or height of a horizontal one) takes away from
      the content: the reserved width of a floating bar, otherwise the bar and
      both its margins. */
  function AllocatedWidth(s: ScrollStyle): (w: real)
    ensures s.floating ==> w == s.floatingAllocatedWidth
    ensures !s.floating ==> w == s.barInnerMargin + s.barWidth + s.barOuterMargin
    ensures WellFormed(s) ==> w >= 0.0
    ensures WellFormed(s) && !s.floating ==> w >= s.barWidth
  {
    if s.floating then s.floatingAllocatedWidth
    else s.barInnerMargin + s.barWidth + s.barOuterMargin
  }

  /** A floating bar reserves the same space however wide it is drawn or
      whatever its margins, so widening it on hover never moves the content. */
  lemma FloatingWidthIndependentOfBar(s: ScrollStyle, width: real, inner: real, outer: real)
    requires s.floating
    ensures AllocatedWidth(s.(barWidth := width, barInnerMargin := inner, barOuterMargin := outer))
         == AllocatedWidth(s)
  {
  }

  /** The space each preset reserves. */
  lemma PresetAllocatedWidths()
    ensures AllocatedWidth(Solid()) == 10.0
    ensures AllocatedWidth(Thin()) == 6.0
    ensures AllocatedWidth(Floating()) == 0.0
    ensures AllocatedWidth(DefaultScrollStyle()) == 0.0
  {
  }
}

=== FILE: styles.dfy ===
/** The theme aggregate: fonts per text style, spacing, interaction timing and
    visuals, with the lookups widgets use to turn a text style or an
    interaction outcome into concrete paint parameters. */
module Styles {
  import opened Results
  import opened Colors
  import opened TextStyles
  import opened WidgetStates
  import opened VisualTheme
  import opened ScrollStyles

  datatype Vec2 = Vec2(x: real, y: real)

  /** Inner margins of a frame, one per side, in whole points. */
  datatype Margin = Margin(left: int, right: int, top: int, bottom: int)

  function SameMargin(n: int): (m: Margin)
    ensures m.left == m.right == m.top == m.bottom == n
  {
    Margin(n, n, n, n)
  }

  datatype Align = Min | Center | Max

  datatype TextWrapMode = Extend | Wrap | Truncate

  /** Sizes of and distances between widgets. */
  datatype Spacing = Spacing(
    itemSpacing: Vec2,
    windowMargin: Margin,
    buttonPadding: Vec2,
    menuMargin: Margin,
    indent: real,
    interactSize: Vec2,
    sliderWidth: real,
    sliderRailHeight: real,
    comboWidth: real,
    textEditWidth: real,
    iconWidth: real,
    iconWidthInner: real,
    iconSpacing: real,
    defaultAreaSize: Vec2,
    tooltipWidth: real,
    menuWidth: real,
    menuSpacing: real,
    indentEndsWithHorizontalLine: bool,
    comboHeight: real,
    scroll: ScrollStyle
  )

  function DefaultSpacing(): (s: Spacing)
    ensures s.scroll == Floating()
  {
    Spacing(
      itemSpacing := Vec2(8.0, 3.0),
      windowMargin := SameMargin(6),
      buttonPadding := Vec2(4.0, 1.0),
      menuMargin := SameMargin(6),
      indent := 18.0,
      interactSize := Vec2(40.0, 18.0),
      sliderWidth := 100.0,
      sliderRailHeight := 8.0,
      comboWidth := 100.0,
      textEditWidth := 280.0,
      iconWidth := 14.0,
      iconWidthInner := 8.0,
      iconSpacing := 4.0,
      defaultAreaSize := Vec2(600.0, 400.0),
      tooltipWidth := 500.0,
      menuWidth := 400.0,
      menuSpacing := 2.0,
      indentEndsWithHorizontalLine := false,
      comboHeight := 200.0,
      scroll := DefaultScrollStyle()
    )
  }

  /** How and when interaction happens. */
  datatype Interaction = Interaction(
    interactRadius: real,
    resizeGrabRadiusSide: real,
    resizeGrabRadiusCorner: real,
    showTooltipsOnlyWhenStill: bool,
    tooltipDelay: real,
    tooltipGraceTime: real,
    selectableLabels: bool,
    multiWidgetTextSelect: bool
  )

  function DefaultInteraction(): (i: Interaction)
    ensures i.resizeGrabRadiusSide < i.resizeGrabRadiusCorner
    ensures 0.0 < i.tooltipGraceTime < i.tooltipDelay
  {
    Interaction(
      interactRadius := 5.0,
      resizeGrabRadiusSide := 5.0,
      resizeGrabRadiusCorner := 10.0,
      showTooltipsOnlyWhenStill := true,
      tooltipDelay := 0.5,
      tooltipGraceTime := 0.2,
      selectableLabels := true,
      multiWidgetTextSelect := true
    )
  }

  /** The whole theme. */
  datatype Style = Style(
    overrideTextStyle: Option<TextStyle>,  // default text style for all widgets
    overrideFontId: Option<FontId>,        // default font for all widgets; wins over the above
    overrideTextValign: Option<Align>,
    textStyles: map<TextStyle, FontId>,
    dragValueTextStyle: TextStyle,
    wrapMode: Option<TextWrapMode>,
    spacing: Spacing,
    interaction: Interaction,
    visuals: Visuals,
    animationTime: real,                   // seconds a typical animation lasts
    explanationTooltips: bool,
    urlInTooltip: bool,
    alwaysScrollTheOnlyDirection: bool,
    compactMenuStyle: bool
  )

  /** The default theme. */
  function DefaultStyle(): (s: Style)
    ensures s.textStyles.Keys == BaselineKeys
    ensures forall k :: k in BaselineKeys ==> ResolveTextStyle(k, s).Success?
    ensures ResolveTextStyle(s.dragValueTextStyle, s).Success?
    ensures s.overrideFontId.None? && s.overrideTextStyle.None?
    ensures s.overrideTextValign == Some(Center)
    ensures s.visuals == Dark() && s.spacing.scroll == Floating()
    ensures s.animationTime > 0.0
  {
    Style(
      overrideTextStyle := None,
      overrideFontId := None,
      overrideTextValign := Some(Center),
      textStyles := DefaultTextStyles(),
      dragValueTextStyle := Button,
      wrapMode := None,
      spacing := DefaultSpacing(),
      interaction := DefaultInteraction(),
      visuals := DefaultVisuals(),
      animationTime := 1.0 / 12.0,
      explanationTooltips := false,
      urlInTooltip := false,
      alwaysScrollTheOnlyDirection := false,
      compactMenuStyle := true
    )
  }

  // ---------------------------------------------------------------------------
  // Fonts.

  /** The one error of style resolution: a text style the table lacks. In the
      toolkit this aborts with a message listing the table's keys. */
  datatype StyleError = MissingTextStyle(key: TextStyle)

  /** The font a text style names in this theme. */
  function ResolveTextStyle(key: TextStyle, style: Style): (r: Result<FontId, StyleError>)
    ensures r.Success? <==> key in style.textStyles
    ensures r.Success? ==> r.value == style.textStyles[key]
    ensures r.Failure? ==> r.error == MissingTextStyle(key)
  {
    if key in style.textStyles then Success(style.textStyles[key])
    else Failure(MissingTextStyle(key))
  }

  /** The keys of the theme's font table, in table order: exactly the text
      styles that resolve. */
  method AvailableTextStyles(style: Style) returns (keys: seq<TextStyle>)
    ensures StrictlyIncreasing(keys)
    ensures forall k :: k in keys <==> ResolveTextStyle(k, style).Success?
  {
    keys := SortedKeys(style.textStyles);
  }

  /** How a widget picks its font. The toolkit calls the last two variants
      `FontId` and `Style`; here they are renamed because those names are
      already taken by the `FontId` and `Style` datatypes. */
  datatype FontSelection =
    | Default                 // the theme's default text
    | Direct(font: FontId)    // this exact font
    | Keyed(key: TextStyle)   // the font of this text style

  /** The font a selection stands for. For `Default` the theme's font
      override wins, then its text-style override, then `Body`. */
  function ResolveFont(selection: FontSelection, style: Style): (r: Result<FontId, StyleError>)
    ensures selection.Direct? ==> r == Success(selection.font)
    ensures selection.Keyed? ==> r == ResolveTextStyle(selection.key, style)
    ensures selection.Default? && style.overrideFontId.Some? ==>
      r == Success(style.overrideFontId.value)
    ensures selection.Default? && style.overrideFontId.None? && style.overrideTextStyle.Some? ==>
      r == ResolveTextStyle(style.overrideTextStyle.value, style)
    ensures selection.Default? && style.overrideFontId.None? && style.overrideTextStyle.None? ==>
      r == ResolveTextStyle(Body, style)
  {
    match selection
    case Default =>
      if style.overrideFontId.Some? then Success(style.overrideFontId.value)
      else if style.overrideTextStyle.Some? then ResolveTextStyle(style.overrideTextStyle.value, style)
      else ResolveTextStyle(Body, style)
    case Direct(font) => Success(font)
    case Keyed(key) => ResolveTextStyle(key, style)
  }

  /** A font override makes the text-style override irrelevant. */
  lemma FontOverrideBeatsTextStyleOverride(style: Style, textStyle: Option<TextStyle>)
    requires style.overrideFontId.Some?
    ensures ResolveFont(Default, style.(overrideTextStyle := textStyle))
         == ResolveFont(Default, style)
         == Success(style.overrideFontId.value)
  {
  }

  /** A theme whose table has the baseline keys and its own text-style
      override. */
  predicate CoversDefaults(style: Style) {
    && BaselineKeys <= style.textStyles.Keys
    && (style.overrideTextStyle.Some? ==> style.overrideTextStyle.value in style.textStyles)
  }

  /** In such a theme, the default selection always resolves, and resolution
      fails exactly when a selection names a missing text style. */
  lemma ResolveFontFailsOnlyOnMissingKey(selection: FontSelection, style: Style)
    requires CoversDefaults(style)
    ensures ResolveFont(selection, style).Failure? <==>
      selection.Keyed? && selection.key !in style.textStyles
    ensures ResolveFont(selection, style).Failure? ==>
      ResolveFont(selection, style).error == MissingTextStyle(selection.key)
  {
  }

  /** The default theme covers its defaults, and its default text is the body
      font. */
  lemma DefaultStyleResolvesBody()
    ensures CoversDefaults(DefaultStyle())
    ensures ResolveFont(Default, DefaultStyle()) == ResolveTextStyle(Body, DefaultStyle())
    ensures ResolveFont(Default, DefaultStyle()) == Success(FontId(12.5, Proportional))
  {
  }

  // ---------------------------------------------------------------------------
  // Widget looks.

  /** The look of a widget with the given interaction outcome. */
  function Interact(style: Style, response: Response): (v: WidgetVisuals)
    ensures v == style.visuals.widgets.Get(Classify(response))
    ensures !response.interactive ==> v == style.visuals.widgets.noninteractive
  {
    style.visuals.widgets.Style(response)
  }

  /** The look of a widget that can be selected: when selected, both fills
      take the selection colour and the foreground takes the selection
      stroke; outline, rounding and expansion stay those of the state. */
  function InteractSelectable(style: Style, response: Response, selected: bool): (v: WidgetVisuals)
    ensures !selected ==> v == Interact(style, response)
    ensures selected ==> v.weakBgFill == style.visuals.selection.bgFill
    ensures selected ==> v.bgFill == style.visuals.selection.bgFill
    ensures selected ==> v.fgStroke == style.visuals.selection.stroke
    ensures v.bgStroke == Interact(style, response).bgStroke
    ensures v.cornerRadius == Interact(style, response).cornerRadius
    ensures v.expansion == Interact(style, response).expansion
  {
    var visuals := style.visuals.widgets.Style(response);
    if selected then
      visuals.(
        weakBgFill := style.visuals.selection.bgFill,
        bgFill := style.visuals.selection.bgFill,
        fgStroke := style.visuals.selection.stroke)
    else visuals
  }

  /** Selecting keeps the theme's promise of a visible mandatory background
      as long as the selection fill is visible. */
  lemma InteractSelectableKeepsBgFillVisible(style: Style, response: Response, selected: bool)
    requires BgFillsVisible(style.visuals.widgets)
    requires style.visuals.selection.bgFill != TRANSPARENT
    ensures InteractSelectable(style, response, selected).bgFill != TRANSPARENT
  {
  }

  /** A selected widget's fills and text colour come from the selection alone,
      not from its interaction state. */
  lemma SelectedFillsIgnoreInteraction(style: Style, r1: Response, r2: Response)
    ensures InteractSelectable(style, r1, true).bgFill == InteractSelectable(style, r2, true).bgFill
    ensures InteractSelectable(style, r1, true).weakBgFill == InteractSelectable(style, r2, true).weakBgFill
    ensures InteractSelectable(style, r1, true).TextColor() == style.visuals.selection.stroke.color
  {
  }

  /** The look of widgets that cannot be interacted with. */
  function Noninteractive(style: Style): (v: WidgetVisuals)
    ensures forall r: Response :: !r.interactive ==> v == Interact(style, r)
  {
    style.visuals.widgets.noninteractive
  }

  /** In both presets, no interaction outcome and no selection yields a
      transparent mandatory background. */
  lemma PresetSelectableBgFillVisible(style: Style, response: Response, selected: bool)
    requires style.visuals == Dark() || style.visuals == Light()
    ensures InteractSelectable(style, response, selected).bgFill != TRANSPARENT
  {
  }
}

=== FILE: text_styles.dfy ===
/** Text-style keys, the fonts they name, and the total order under which
    the theme's key-to-font table enumerates its keys. */
module TextStyles {

  /** A font family: proportional, monospace, or one registered by name. */
  datatype FontFamily = Proportional | Monospace | FamilyName(name: string)

  /** A concrete font: a size in points and a family. */
  datatype FontId = FontId(size: real, family: FontFamily)

  /** An abstract text style, looked up in the theme's table to get a font.
      `Name` is a user-chosen style. */
  datatype TextStyle = Small | Body | Monospace | Button | Heading | Name(name: string)

  /** The five styles the toolkit itself looks up. */
  const BaselineKeys: set<TextStyle> := {Small, Body, TextStyle.Monospace, Button, Heading}

  /** The font table of the default theme. */
  function DefaultTextStyles(): (m: map<TextStyle, FontId>)
    ensures m.Keys == BaselineKeys
    ensures forall k :: k in m ==> m[k].size > 0.0
    ensures m[TextStyle.Monospace].family == FontFamily.Monospace
    ensures forall k :: k in m && k != TextStyle.Monospace ==> m[k].family == Proportional
    ensures m[Body].size == m[Button].size
    ensures m[Small].size < m[Body].size < m[Heading].size
  {
    map[
      Small := FontId(9.0, Proportional),
      Body := FontId(12.5, Proportional),
      Button := FontId(12.5, Proportional),
      Heading := FontId(18.0, Proportional),
      TextStyle.Monospace := FontId(12.0, FontFamily.Monospace)
    ]
  }

  // ---------------------------------------------------------------------------
  // The derived order: by variant first, then by name.

  /** Position of the variant in the declaration. */
  function VariantIndex(t: TextStyle): nat {
    match t
    case Small => 0
    case Body => 1
    case Monospace => 2
    case Button => 3
    case Heading => 4
    case Name(_) => 5
  }

  /** Lexicographic order on names: a proper prefix comes first, otherwise
      the first differing character decides. */
  predicate NameLess(a: string, b: string) {
    if |a| == 0 then |b| > 0
    else if |b| == 0 then false
    else if a[0] != b[0] then a[0] < b[0]
    else NameLess(a[1..], b[1..])
  }

  /** The strict order on text styles. */
  predicate Less(a: TextStyle, b: TextStyle) {
    VariantIndex(a) < VariantIndex(b) || (a.Name? && b.Name? && NameLess(a.name, b.name))
  }

  lemma {:induction false} NameLessIrreflexive(a: string)
    ensures !NameLess(a, a)
  {
    if |a| > 0 {
      NameLessIrreflexive(a[1..]);
    }
  }

  lemma {:induction false} NameLessTransitive(a: string, b: string, c: string)
    requires NameLess(a, b) && NameLess(b, c)
    ensures NameLess(a, c)
  {
    if |a| > 0 && |b| > 0 && |c| > 0 && a[0] == b[0] && b[0] == c[0] {
      NameLessTransitive(a[1..], b[1..], c[1..]);
    }
  }

  lemma {:induction false} NameLessTotal(a: string, b: string)
    requires a != b
    ensures NameLess(a, b) || NameLess(b, a)
  {
    if |a| > 0 && |b| > 0 && a[0] == b[0] {
      assert a == [a[0]] + a[1..] && b == [b[0]] + b[1..];
      NameLessTotal(a[1..], b[1..]);
    }
  }

  /** The order is strict: no style comes before itself. */
  lemma LessIrreflexive(a: TextStyle)
    ensures !Less(a, a)
  {
    if a.Name? {
      NameLessIrreflexive(a.name);
    }
  }

  lemma LessTransitive(a: TextStyle, b: TextStyle, c: TextStyle)
    requires Less(a, b) && Less(b, c)
    ensures Less(a, c)
  {
    if a.Name? && b.Name? && c.Name? {
      NameLessTransitive(a.name, b.name, c.name);
    }
  }

  /** Any two distinct styles are ordered one way or the other. */
  lemma LessTotal(a: TextStyle, b: TextStyle)
    requires a != b
    ensures Less(a, b) || Less(b, a)
  {
    if a.Name? && b.Name? {
      NameLessTotal(a.name, b.name);
    }
  }

  lemma LessAsymmetric(a: TextStyle, b: TextStyle)
    requires Less(a, b)
    ensures !Less(b, a)
  {
    if Less(b, a) {
      LessTransitive(a, b, a);
      LessIrreflexive(a);
    }
  }

  // ---------------------------------------------------------------------------
  // Enumerating a key set in order.

  predicate StrictlyIncreasing(s: seq<TextStyle>) {
    forall i, j :: 0 <= i < j < |s| ==> Less(s[i], s[j])
  }

  /** The least element of a non-empty set of styles. */
  method Least(s: set<TextStyle>) returns (m: TextStyle)
    requires s != {}
    ensures m in s
    ensures forall k :: k in s && k != m ==> Less(m, k)
  {
    m :| m in s;
    var todo := s - {m};
    while todo != {}
      invariant todo <= s && m in s && m !in todo
      invariant forall k :: k in s && k !in todo && k != m ==> Less(m, k)
      decreases todo
    {
      var k :| k in todo;
      if Less(k, m) {
        forall j | j in s && j !in todo && j != m
          ensures Less(k, j)
        {
          LessTransitive(k, m, j);
        }
        m := k;
      } else {
        LessTotal(k, m);
      }
      todo := todo - {k};
    }
  }

  /** All keys of a font table in increasing order, each exactly once: the
      order in which the table enumerates them. */
  method SortedKeys(m: map<TextStyle, FontId>) returns (keys: seq<TextStyle>)
    ensures StrictlyIncreasing(keys)
    ensures forall k :: k in keys <==> k in m
  {
    var rest := m.Keys;
    keys := [];
    while rest != {}
      invariant rest <= m.Keys
      invariant forall k :: k in keys ==> k in m && k !in rest
      invariant forall k :: k in m && k !in rest ==> k in keys
      invariant StrictlyIncreasing(keys)
      invariant forall i, k :: 0 <= i < |keys| && k in rest ==> Less(keys[i], k)
      decreases rest
    {
      var least := Least(rest);
      keys := keys + [least];
      rest := rest - {least};
    }
  }

  /** Two increasing enumerations of the same keys are the same sequence, so
      the enumeration order is fully determined by the key set. */
  lemma {:induction false} IncreasingEnumerationUnique(a: seq<TextStyle>, b: seq<TextStyle>)
    requires StrictlyIncreasing(a) && StrictlyIncreasing(b)
    requires forall k :: k in a <==> k in b
    ensures a == b
  {
    SameKeysBothEmpty(a, b);
    if |a| > 0 {
      FirstIsLeast(a, b);
      FirstIsLeast(b, a);
      if a[0] != b[0] {
        LessAsymmetric(a[0], b[0]);
      }
      forall k
        ensures k in a[1..] <==> k in b[1..]
      {
        TailMembership(a, k);
        TailMembership(b, k);
      }
      IncreasingEnumerationUnique(a[1..], b[1..]);
      assert a == [a[0]] + a[1..] && b == [b[0]] + b[1..];
    }
  }

  lemma SameKeysBothEmpty(a: seq<TextStyle>, b: seq<TextStyle>)
    requires forall k :: k in a <==> k in b
    ensures |a| == 0 <==> |b| == 0
  {
    if |a| > 0 {
      assert a[0] in a;
    }
    if |b| > 0 {
      assert b[0] in b;
    }
  }

  /** The head of an increasing enumeration precedes every other element of
      any sequence holding the same keys. */
  lemma FirstIsLeast(a: seq<TextStyle>, b: seq<TextStyle>)
    requires StrictlyIncreasing(a) && |a| > 0 && |b| > 0
    requires forall k :: k in a <==> k in b
    ensures a[0] != b[0] ==> Less(a[0], b[0])
  {
    assert b[0] in b;
    var i :| 0 <= i < |a| && a[i] == b[0];
  }

  /** In an increasing enumeration, the tail holds exactly the elements other
      than the head. */
  lemma TailMembership(a: seq<TextStyle>, k: TextStyle)
    requires StrictlyIncreasing(a) && |a| > 0
    ensures k in a[1..] <==> k in a && k != a[0]
  {
    if k in a && k != a[0] {
      var i :| 0 <= i < |a| && a[i] == k;
      assert a[1..][i - 1] == k;
    }
    if k in a[1..] {
      var i :| 0 <= i < |a| - 1 && a[1..][i] == k;
      assert Less(a[0], a[i + 1]);
      LessIrreflexive(k);
    }
  }
}

=== FILE: visual_theme.dfy ===
/** The colour and shape theme: the per-state widget looks plus the global
    colours, shapes and flags, the dark and light presets, and the accessors
    that apply the theme's override layers. */
module VisualTheme {
  import opened Results
  import opened Colors
  import opened WidgetStates

  /** How text coverage becomes alpha; the two presets' curves are named
      constants of the paint layer. */
  datatype AlphaFromCoverage = DarkModeDefault | LightModeDefault

  /** Shape of slider handles. */
  datatype HandleShape = Circle | Rect(aspectRatio: real)

  /** How numeric colour values are displayed in editors. */
  datatype NumericColorSpace = GammaByte | Linear

  /** A mouse cursor, known here only by name. */
  datatype CursorIcon = CursorIcon(name: string)

  /** Look and behaviour of the text cursor. */
  datatype TextCursorStyle = TextCursorStyle(
    stroke: Stroke,
    preview: bool,
    blink: bool,
    onDuration: real,
    offDuration: real
  )

  /** The default text cursor, tuned for the dark theme. */
  function DefaultTextCursor(): (c: TextCursorStyle)
    ensures c.blink && !c.preview
    ensures c.onDuration == c.offDuration > 0.0
  {
    TextCursorStyle(Stroke(2.0, FromRgb(192, 222, 255)), false, true, 0.5, 0.5)
  }

  datatype Visuals = Visuals(
    darkMode: bool,  // descriptive only: nothing else is derived from it
    textAlphaFromCoverage: AlphaFromCoverage,
    overrideTextColor: Option<Color32>,
    weakTextAlpha: real,
    weakTextColor: Option<Color32>,
    widgets: Widgets,
    selection: Selection,
    hyperlinkColor: Color32,
    faintBgColor: Color32,
    extremeBgColor: Color32,
    textEditBgColor: Option<Color32>,
    codeBgColor: Color32,
    warnFgColor: Color32,
    errorFgColor: Color32,
    windowCornerRadius: CornerRadius,
    windowShadow: Shadow,
    windowFill: Color32,
    windowStroke: Stroke,
    windowHighlightTopmost: bool,
    menuCornerRadius: CornerRadius,
    panelFill: Color32,
    popupShadow: Shadow,
    resizeCornerSize: real,
    textCursor: TextCursorStyle,
    clipRectMargin: real,
    buttonFrame: bool,
    collapsingHeaderFrame: bool,
    indentHasLeftVline: bool,
    striped: bool,
    sliderTrailingFill: bool,
    handleShape: HandleShape,
    interactCursor: Option<CursorIcon>,
    imageLoadingSpinners: bool,
    numericColorSpace: NumericColorSpace,
    disabledAlpha: real
  )

  // ---------------------------------------------------------------------------
  // Accessors applying the override layers.

  /** The colour of ordinary text: the global override if there is one,
      otherwise the text colour of a widget that cannot be interacted with. */
  function TextColor(v: Visuals): (c: Color32)
    ensures v.overrideTextColor.Some? ==> c == v.overrideTextColor.value
    ensures v.overrideTextColor.None? ==>
      forall r: Response :: !r.interactive ==> c == v.widgets.Style(r).TextColor()
  {
    v.overrideTextColor.GetOr(v.widgets.noninteractive.TextColor())
  }

  /** The colour of weak text: the explicit weak colour if there is one,
      otherwise the ordinary text colour scaled by `weakTextAlpha`. The alpha
      scaling belongs to the colour crate and is passed in as `gammaMultiply`. */
  function WeakTextColor(v: Visuals, gammaMultiply: (Color32, real) -> Color32): (c: Color32)
    ensures v.weakTextColor.Some? ==> c == v.weakTextColor.value
    ensures v.weakTextColor.None? && v.overrideTextColor.Some? ==>
      c == gammaMultiply(v.overrideTextColor.value, v.weakTextAlpha)
    ensures v.weakTextColor.None? && v.overrideTextColor.None? ==>
      c == gammaMultiply(v.widgets.noninteractive.fgStroke.color, v.weakTextAlpha)
  {
    v.weakTextColor.GetOr(gammaMultiply(TextColor(v), v.weakTextAlpha))
  }

  /** The colour of strong text: the text colour of a pressed, focused or
      clicked widget. The global text-colour override does not apply. */
  function StrongTextColor(v: Visuals): (c: Color32)
    ensures forall r: Response :: r.interactive && (r.pointerDownOn || r.hasFocus || r.clicked) ==>
      c == v.widgets.Style(r).TextColor()
  {
    v.widgets.active.TextColor()
  }

  /** The background of text-edit fields: the explicit colour if there is one,
      otherwise the theme's extreme background. */
  function TextEditBgColor(v: Visuals): (c: Color32)
    ensures v.textEditBgColor.Some? ==> c == v.textEditBgColor.value
    ensures v.textEditBgColor.None? ==> c == v.extremeBgColor
  {
    v.textEditBgColor.GetOr(v.extremeBgColor)
  }

  /** The strong text colour ignores the global text-colour override: setting
      it changes ordinary text only. */
  lemma StrongTextIgnoresOverride(v: Visuals, color: Color32)
    ensures StrongTextColor(v.(overrideTextColor := Some(color))) == StrongTextColor(v)
    ensures TextColor(v.(overrideTextColor := Some(color))) == color
  {
  }

  // ---------------------------------------------------------------------------
  // Presets.

  /** The fields `Light` does not set, and so takes over from `Dark`. */
  predicate AgreeOnThemeIndependentFields(a: Visuals, b: Visuals) {
    && a.overrideTextColor == b.overrideTextColor
    && a.weakTextAlpha == b.weakTextAlpha
    && a.weakTextColor == b.weakTextColor
    && a.textEditBgColor == b.textEditBgColor
    && a.windowCornerRadius == b.windowCornerRadius
    && a.windowHighlightTopmost == b.windowHighlightTopmost
    && a.menuCornerRadius == b.menuCornerRadius
    && a.resizeCornerSize == b.resizeCornerSize
    && a.clipRectMargin == b.clipRectMargin
    && a.buttonFrame == b.buttonFrame
    && a.collapsingHeaderFrame == b.collapsingHeaderFrame
    && a.indentHasLeftVline == b.indentHasLeftVline
    && a.striped == b.striped
    && a.sliderTrailingFill == b.sliderTrailingFill
    && a.handleShape == b.handleShape
    && a.interactCursor == b.interactCursor
    && a.imageLoadingSpinners == b.imageLoadingSpinners
    && a.numericColorSpace == b.numericColorSpace
    && a.disabledAlpha == b.disabledAlpha
  }

  /** The theme invariants both presets keep: visible mandatory backgrounds,
      a visible selection fill, and no overrides set. */
  predicate PresetInvariants(v: Visuals) {
    && BgFillsVisible(v.widgets)
    && v.selection.bgFill != TRANSPARENT
    && v.overrideTextColor.None?
    && v.weakTextColor.None?
    && v.textEditBgColor.None?
    && 0.0 < v.weakTextAlpha <= 1.0
    && 0.0 < v.disabledAlpha <= 1.0
  }

  /** The dark theme. */
  function Dark(): (v: Visuals)
    ensures v.darkMode
    ensures v.widgets == DarkWidgets() && v.selection == DarkSelection()
    ensures v.textAlphaFromCoverage == DarkModeDefault
    ensures PresetInvariants(v)
    ensures v.handleShape == Circle && v.numericColorSpace == GammaByte
  {
    Visuals(
      darkMode := true,
      textAlphaFromCoverage := DarkModeDefault,
      overrideTextColor := None,
      weakTextAlpha := 0.6,
      weakTextColor := None,
      widgets := DefaultWidgets(),
      selection := DefaultSelection(),
      hyperlinkColor := FromRgb(90, 170, 255),
      faintBgColor := FromAdditiveLuminance(5),
      extremeBgColor := FromGray(10),
      textEditBgColor := None,
      codeBgColor := FromGray(64),
      warnFgColor := FromRgb(255, 143, 0),
      errorFgColor := FromRgb(255, 0, 0),
      windowCornerRadius := Same(6),
      windowShadow := Shadow(10, 20, 15, 0, FromBlackAlpha(96)),
      windowFill := FromGray(27),
      windowStroke := Stroke(1.0, FromGray(60)),
      windowHighlightTopmost := true,
      menuCornerRadius := Same(6),
      panelFill := FromGray(27),
      popupShadow := Shadow(6, 10, 8, 0, FromBlackAlpha(96)),
      resizeCornerSize := 12.0,
      textCursor := DefaultTextCursor(),
      clipRectMargin := 3.0,
      buttonFrame := true,
      collapsingHeaderFrame := false,
      indentHasLeftVline := true,
      striped := false,
      sliderTrailingFill := false,
      handleShape := Circle,
      interactCursor := None,
      imageLoadingSpinners := true,
      numericColorSpace := GammaByte,
      disabledAlpha := 0.5
    )
  }

  /** The light theme: the dark theme with the colours, shadows and text
      cursor replaced, and every other field taken over unchanged. */
  function Light(): (v: Visuals)
    ensures !v.darkMode
    ensures v.widgets == LightWidgets() && v.selection == LightSelection()
    ensures v.textAlphaFromCoverage == LightModeDefault
    ensures PresetInvariants(v)
    ensures AgreeOnThemeIndependentFields(v, Dark())
    ensures v.textCursor == Dark().textCursor.(stroke := v.textCursor.stroke)
    ensures v.windowShadow.color.a < Dark().windowShadow.color.a
    ensures v.faintBgColor == Dark().faintBgColor && v.errorFgColor == Dark().errorFgColor
  {
    Dark().(
      darkMode := false,
      textAlphaFromCoverage := LightModeDefault,
      widgets := LightWidgets(),
      selection := LightSelection(),
      hyperlinkColor := FromRgb(0, 155, 255),
      faintBgColor := FromAdditiveLuminance(5),
      extremeBgColor := FromGray(255),
      codeBgColor := FromGray(230),
      warnFgColor := FromRgb(255, 100, 0),
      errorFgColor := FromRgb(255, 0, 0),
      windowShadow := Shadow(10, 20, 15, 0, FromBlackAlpha(25)),
      windowFill := FromGray(248),
      windowStroke := Stroke(1.0, FromGray(190)),
      panelFill := FromGray(248),
      popupShadow := Shadow(6, 10, 8, 0, FromBlackAlpha(25)),
      textCursor := DefaultTextCursor().(stroke := Stroke(2.0, FromRgb(0, 83, 125)))
    )
  }

  /** The default theme is the dark one. */
  function DefaultVisuals(): (v: Visuals)
    ensures v == Dark()
  {
    Dark()
  }

  /** What the accessors give for the two presets: light text on a dark
      text-edit background, and the reverse. */
  lemma PresetTextColors()
    ensures TextColor(Dark()) == FromGray(140) && StrongTextColor(Dark()) == WHITE
    ensures TextEditBgColor(Dark()) == FromGray(10)
    ensures TextColor(Light()) == FromGray(80) && StrongTextColor(Light()) == BLACK
    ensures TextEditBgColor(Light()) == FromGray(255)
  {
  }
}

=== FILE: widget_states.dfy ===
/** Per-interaction-state paint parameters and the classifier that picks one
    of them from a widget's interaction outcome for the current frame. */
module WidgetStates {
  import opened Colors

  /** The interaction outcome of one widget in one frame, reduced to the six
      flags the classifier reads. */
  datatype Response = Response(
    interactive: bool,    // the widget senses clicks or drags at all
    pointerDownOn: bool,  // a pointer button is held down on it
    hasFocus: bool,       // it has keyboard focus
    clicked: bool,        // it was clicked this frame
    hovered: bool,        // the pointer is over it
    highlighted: bool     // it was highlighted programmatically
  )

  /** Paint parameters for one interaction state. `bgFill` is for widgets that
      must show a background and is meant never to be transparent; `weakBgFill`
      is for widgets whose background is optional and may be. `fgStroke` drives
      both outlines and the text colour. */
  datatype WidgetVisuals = WidgetVisuals(
    bgFill: Color32,
    weakBgFill: Color32,
    bgStroke: Stroke,
    cornerRadius: CornerRadius,
    fgStroke: Stroke,
    expansion: real
  ) {
    /** Text is painted in the colour of the foreground stroke. */
    function TextColor(): (c: Color32)
      ensures c == fgStroke.color
    {
      fgStroke.color
    }
  }

  /** The five interaction states the theme has paint parameters for. */
  datatype WidgetState = Noninteractive | Inactive | Hovered | Active | Open

  /** One set of paint parameters per state. */
  datatype Widgets = Widgets(
    noninteractive: WidgetVisuals,
    inactive: WidgetVisuals,
    hovered: WidgetVisuals,
    active: WidgetVisuals,
    open: WidgetVisuals
  ) {
    /** The paint parameters stored for `state`. */
    function Get(state: WidgetState): WidgetVisuals {
      match state
      case Noninteractive => noninteractive
      case Inactive => inactive
      case Hovered => hovered
      case Active => active
      case Open => open
    }

    /** The paint parameters for a widget with the given interaction outcome.
        The open state is never chosen here: callers showing an open menu pick
        it themselves. */
    function Style(response: Response): (v: WidgetVisuals)
      ensures v == Get(Classify(response))
      ensures !response.interactive ==> v == noninteractive
      ensures v in {noninteractive, inactive, hovered, active}
    {
      if !response.interactive then noninteractive
      else if response.pointerDownOn || response.hasFocus || response.clicked then active
      else if response.hovered || response.highlighted then hovered
      else inactive
    }
  }

  // ---------------------------------------------------------------------------
  // Classification, and an independent description of it as "the strongest
  // state whose condition holds".

  /** Whether the flags of `r` call for `state`, ignoring every other state. */
  predicate Claims(r: Response, state: WidgetState) {
    match state
    case Noninteractive => !r.interactive
    case Active => r.pointerDownOn || r.hasFocus || r.clicked
    case Hovered => r.hovered || r.highlighted
    case Inactive => true
    case Open => false
  }

  /** How strongly a state overrides the others when several are claimed. */
  function Strength(state: WidgetState): nat {
    match state
    case Inactive => 0
    case Hovered => 1
    case Active => 2
    case Noninteractive => 3
    case Open => 4
  }

  /** The interaction state of a widget: the claimed state of greatest strength. */
  function Classify(r: Response): (s: WidgetState)
    ensures Claims(r, s)
    ensures forall t :: Claims(r, t) && t != s ==> Strength(t) < Strength(s)
    ensures s != Open
  {
    if !r.interactive then Noninteractive
    else if r.pointerDownOn || r.hasFocus || r.clicked then Active
    else if r.hovered || r.highlighted then Hovered
    else Inactive
  }

  /** The precedence spelled out case by case, each as an if-and-only-if. */
  lemma ClassifyPrecedence(r: Response)
    ensures Classify(r) == Noninteractive <==> !r.interactive
    ensures Classify(r) == Active <==>
      r.interactive && (r.pointerDownOn || r.hasFocus || r.clicked)
    ensures Classify(r) == Hovered <==>
      r.interactive && !(r.pointerDownOn || r.hasFocus || r.clicked) && (r.hovered || r.highlighted)
    ensures Classify(r) == Inactive <==>
      r.interactive && !(r.pointerDownOn || r.hasFocus || r.clicked || r.hovered || r.highlighted)
  {
  }

  /** A widget that does not sense interaction looks the same whatever else
      happened to it. */
  lemma NoninteractiveIgnoresOtherFlags(w: Widgets, r1: Response, r2: Response)
    requires !r1.interactive && !r2.interactive
    ensures w.Style(r1) == w.Style(r2) == w.noninteractive
  {
  }

  /** Hovering or highlighting a pressed, focused or clicked widget does not
      change its look. */
  lemma ActiveNotOverriddenByHover(w: Widgets, r: Response, hovered: bool, highlighted: bool)
    requires r.interactive && (r.pointerDownOn || r.hasFocus || r.clicked)
    ensures w.Style(r.(hovered := hovered, highlighted := highlighted)) == w.active
  {
  }

  // ---------------------------------------------------------------------------
  // Theme invariant and presets.

  /** The invariant the theme promises consumers: no state's mandatory
      background is fully transparent. */
  predicate BgFillsVisible(w: Widgets) {
    forall state: WidgetState :: w.Get(state).bgFill != TRANSPARENT
  }

  /** Colours and strokes of selected items. */
  datatype Selection = Selection(bgFill: Color32, stroke: Stroke)

  function DarkSelection(): (s: Selection)
    ensures IsOpaque(s.bgFill) && s.bgFill != TRANSPARENT
    ensures s.stroke.width > 0.0 && IsOpaque(s.stroke.color)
  {
    Selection(FromRgb(0, 92, 128), Stroke(1.0, FromRgb(192, 222, 255)))
  }

  function LightSelection(): (s: Selection)
    ensures IsOpaque(s.bgFill) && s.bgFill != TRANSPARENT
    ensures s.stroke.width > 0.0 && IsOpaque(s.stroke.color)
  {
    Selection(FromRgb(144, 209, 255), Stroke(1.0, FromRgb(0, 83, 125)))
  }

  /** The default selection colours are the dark ones. */
  function DefaultSelection(): (s: Selection)
    ensures s == DarkSelection()
  {
    DarkSelection()
  }

  /** The widget look of the dark theme. */
  function DarkWidgets(): (w: Widgets)
    ensures BgFillsVisible(w)
    ensures forall state: WidgetState :: IsOpaque(w.Get(state).bgFill)
    ensures w.noninteractive.bgFill == w.noninteractive.weakBgFill
    ensures w.inactive.bgStroke == STROKE_NONE
  {
    Widgets(
      noninteractive := WidgetVisuals(
        bgFill := FromGray(27),
        weakBgFill := FromGray(27),
        bgStroke := Stroke(1.0, FromGray(60)),
        cornerRadius := Same(2),
        fgStroke := Stroke(1.0, FromGray(140)),
        expansion := 0.0),
      inactive := WidgetVisuals(
        bgFill := FromGray(60),
        weakBgFill := FromGray(60),
        bgStroke := STROKE_NONE,
        cornerRadius := Same(2),
        fgStroke := Stroke(1.0, FromGray(180)),
        expansion := 0.0),
      hovered := WidgetVisuals(
        bgFill := FromGray(70),
        weakBgFill := FromGray(70),
        bgStroke := Stroke(1.0, FromGray(150)),
        cornerRadius := Same(3),
        fgStroke := Stroke(1.5, FromGray(240)),
        expansion := 1.0),
      active := WidgetVisuals(
        bgFill := FromGray(55),
        weakBgFill := FromGray(55),
        bgStroke := Stroke(1.0, WHITE),
        cornerRadius := Same(2),
        fgStroke := Stroke(2.0, WHITE),
        expansion := 1.0),
      open := WidgetVisuals(
        bgFill := FromGray(27),
        weakBgFill := FromGray(45),
        bgStroke := Stroke(1.0, FromGray(60)),
        cornerRadius := Same(2),
        fgStroke := Stroke(1.0, FromGray(210)),
        expansion := 0.0)
    )
  }

  /** The widget look of the light theme. */
  function LightWidgets(): (w: Widgets)
    ensures BgFillsVisible(w)
    ensures forall state: WidgetState :: IsOpaque(w.Get(state).bgFill)
    ensures w.noninteractive.bgFill == w.noninteractive.weakBgFill
    ensures w.inactive.bgStroke == STROKE_NONE
  {
    Widgets(
      noninteractive := WidgetVisuals(
        bgFill := FromGray(248),
        weakBgFill := FromGray(248),
        bgStroke := Stroke(1.0, FromGray(190)),
        cornerRadius := Same(2),
        fgStroke := Stroke(1.0, FromGray(80)),
        expansion := 0.0),
      inactive := WidgetVisuals(
        bgFill := FromGray(230),
        weakBgFill := FromGray(230),
        bgStroke := STROKE_NONE,
        cornerRadius := Same(2),
        fgStroke := Stroke(1.0, FromGray(60)),
        expansion := 0.0),
      hovered := WidgetVisuals(
        bgFill := FromGray(220),
        weakBgFill := FromGray(220),
        bgStroke := Stroke(1.0, FromGray(105)),
        cornerRadius := Same(3),
        fgStroke := Stroke(1.5, BLACK),
        expansion := 1.0),
      active := WidgetVisuals(
        bgFill := FromGray(165),
        weakBgFill := FromGray(165),
        bgStroke := Stroke(1.0, BLACK),
        cornerRadius := Same(2),
        fgStroke := Stroke(2.0, BLACK),
        expansion := 1.0),
      open := WidgetVisuals(
        bgFill := FromGray(220),
        weakBgFill := FromGray(220),
        bgStroke := Stroke(1.0, FromGray(160)),
        cornerRadius := Same(2),
        fgStroke := Stroke(1.0, BLACK),
        expansion := 0.0)
    )
  }

  /** The default widget look is the dark one. */
  function DefaultWidgets(): (w: Widgets)
    ensures w == DarkWidgets()
  {
    DarkWidgets()
  }

  /** Whatever the interaction, a preset never hands out a transparent
      mandatory background. */
  lemma PresetStyleBgFillVisible(r: Response)
    ensures DarkWidgets().Style(r).bgFill != TRANSPARENT
    ensures LightWidgets().Style(r).bgFill != TRANSPARENT
  {
  }
}
